=== FILE: README.md ===
# Topology editor core in Dafny

A model of the sequential core of the topology editor, a browser-based
node-link diagram editor. It has two parts, with d3, jQuery and SVG stripped away.

- The record helpers of `js/editor/graph.js`:
  - the `format` string template, where `{}` placeholders take the following arguments;
  - the `Graph.Node` prototype with `init`, `toJson` and `toString`;
  - the `Graph.Link` prototype with `setup`, `toJson` and `toString`.
- The canvas of `js/editor/canvas.js`:
  - the graph store, which is the two arrays `g_nodes` and `links`;
  - the splice-loop filter `_remove` and the add, get and remove operations built on it;
  - the pointer handlers (`dragstart`, `dragmove`, `dragend`, `mousedown`, `mouseup`, `mousemove`, `click`);
  - the state those handlers share: `linking`, `srcnode`, each node's `fixed`/`px`/`py`, the open popovers, and whether the drag line is shown (its `hidden` class).

Modules, one per concern:

- `JsValues` (`js_values.dfy`): `Option`, a `Result` for expressions that throw a TypeError, and the JavaScript values stored on records.
- `Template` (`template.dfy`): `format`. The model follows the code: one left-to-right scan with an argument cursor. An independent description splits the template into literal pieces and gives the k-th placeholder its value. A proof shows the two agree.
- `Records` (`records.dfy`): node and link objects.
  - A node is the map of keys set on the object itself. Other keys read through to the prototype defaults: `name ""`, `label ""`, `type "Node"`, `properties {}`.
  - A link holds references to its endpoint nodes. `toJson` and `toString` take the current node objects, so they show each endpoint as it stands when they are called.
- `Store` (`store.dfy`): the arrays, and `_remove` as a loop proved equal to a functional `Filter`.
  - Nodes are identities (`nat`).
  - A link has its own identity, taken from a counter when `addlink` creates it, plus the identities of its two endpoints. So `removelink`'s `===` tells apart parallel links with equal endpoints.
  - `View` maps a stored link to the `Graph.Link` object it is: the prototype set up with its two endpoints.
  - The `Try` variants are the operations as called, with the argument possibly undefined. Each log line reads a property of the argument before any change, so an undefined or null argument throws a TypeError and leaves the arrays as they were.
- `Gestures` (`gestures.dfy`): every handler is a pure transition over an immutable `Editor` record.

Behaviour of the code that the model keeps, although a reader might expect otherwise:

- `addlink` does not check for self-loops, stale nodes or parallel links. The only thing that stops it is an undefined or null endpoint, and then by a TypeError thrown from its log line, not by a check. Only the `mouseup` guard keeps gestures from creating self-loops.
- There is no name uniqueness, no kind registry and no error kinds. A node missing from `g_nodes` is still removed from every link that touches it. Only a node that is not stored and that no link touches, or a link not in the array, leaves the store as it was.
- A click on the empty canvas closes no popover. It only ends a link gesture when the click was prevented.
- `dragend` clears `srcnode` only when it ends a link gesture. A prevented click clears `linking` but leaves `srcnode` as it was.
- Only a shift `mousedown` shows the drag line, and only a `mouseup` that adds a link hides it. So a ctrl-only link gesture never shows it, and a shift gesture released over its own source node leaves it shown after `dragend`.

## Model

| member | source | states |
|---|---|---|
| Template.Format | js/editor/graph.js:12-17 | the result is the template's literal pieces interleaved, in order, with the value of the 0th, 1st, ... placeholder |
| Template.FormatIsWeave | js/editor/graph.js:14-16 | the left-to-right replace scan, started with the cursor where k placeholders leave it, fills the placeholders with the values k, k+1, ... |
| Template.Arg | js/editor/graph.js:15 | placeholder k receives argument k exactly when arguments 0..k are all present and defined, and '' as soon as one of them is missing or undefined |
| Template.DefinedPrefix | js/editor/graph.js:15 | the cursor's resting place: every argument before it is defined, and the one at it is undefined or missing |
| Template.SplitRoundTrip | js/editor/graph.js:14 | putting `{}` back between the literal pieces gives the template back, so the text outside placeholders is kept verbatim |
| Template.SplitHasNoHoles | js/editor/graph.js:14 | no literal piece contains `{}`; with the round trip, the pieces are exactly the text between the placeholders |
| Template.NoHoleUnchanged | js/editor/graph.js:14 | a template without `{}` is returned unchanged for any arguments |
| Template.ExtraArgsIgnored | js/editor/graph.js:12-17 | arguments beyond the number of placeholders do not change the result |
| Template.UndefinedStopsCursor | js/editor/graph.js:15 | once argument j is undefined, the result equals formatting with the first j arguments only, and every placeholder from j on is '' |
| Template.FormatWoven | js/editor/graph.js:12-17 | a template built from brace-free pieces formats to those pieces interleaved with the placeholder values |
| Records.Init | js/editor/graph.js:63-70 | after `init(values)` every key of `values` reads its new value and every other key reads as before |
| Records.InitKeepsDefaults | js/editor/graph.js:50-70 | on a fresh node, `name`, `label`, `type` and `properties` not given to `init` keep "", "", "Node" and {} |
| Records.InitTwice | js/editor/graph.js:63-70 | two `init` calls equal one with the merged values, later ones winning; repeating an `init` changes nothing |
| Records.NodeToJson | js/editor/graph.js:79-86 | each of name, label, type and properties is the node's own value for that key, else the prototype default "", "", "Node" or {} |
| Records.ExportAfterInit | js/editor/graph.js:79-86 | `toJson` of a node built by `init` is exactly the record of name, label, type and properties, given or defaulted |
| Records.ExportIgnoresOtherKeys | js/editor/graph.js:79-86 | keys other than the four data keys never change a node's export |
| Records.NodeToString | js/editor/graph.js:71-78 | the text is `Node(name='…',label='…',type='…')` with the fields' texts; from the first undefined field on, the fields print empty |
| Records.NodeText | js/editor/graph.js:71-78 | the `toString` template formatted with name, label and type gives that line, blanked from the first undefined field on |
| Records.LinkText | js/editor/graph.js:34-39 | the `toString` template formatted with the source and target labels gives that line, blanked from the first undefined label on |
| Records.Setup | js/editor/graph.js:29-33 | `setup(s, t)` makes references to s and t the endpoints and keeps the properties; the link is unchanged exactly when it already had those endpoints |
| Records.LinkToJson | js/editor/graph.js:40-46 | the export succeeds exactly when both endpoints are set; reading an undefined endpoint throws |
| Records.SetupThenExport | js/editor/graph.js:40-46 | a set-up link exports its endpoints' names and its properties; the bare prototype throws |
| Records.ExportSeesRename | js/editor/graph.js:29-46 | endpoints are references: a source renamed by `init` after `setup` is exported under its new name |
| Records.ExportIgnoresLabels | js/editor/graph.js:40-46 | relabelling the endpoints leaves a link's export unchanged, so endpoints are reported by name |
| Records.LinkToString | js/editor/graph.js:34-39 | the text shows the source's and target's labels, blanked from the first undefined one on, and throws while an endpoint is undefined |
| Store.Filter | js/editor/canvas.js:491-502 | an element survives filtering exactly when it was present and the filter is false for it, and nothing is added |
| Store.FilterAppend | js/editor/canvas.js:491-502 | filtering a concatenation filters each part and keeps them in order, so survivors keep their relative order |
| Store.FilterCounts | js/editor/canvas.js:491-502 | each survivor keeps its multiplicity and each matched element disappears entirely, adjacent repeats included |
| Store.FilterNone | js/editor/canvas.js:491-502 | when the filter matches nothing, the array is unchanged |
| Store.Splice | js/editor/canvas.js:491-502 | the in-place splice loop, which advances its index only past survivors, leaves exactly the filtered array |
| Store.GetNode | js/editor/canvas.js:471-473 | index lookup yields the node at an in-range index and undefined otherwise |
| Store.GetLink | js/editor/canvas.js:475-477 | index lookup yields the link at an in-range index and undefined otherwise |
| Store.AddNode | js/editor/canvas.js:479-482 | one more node; every earlier index reads as before, the new node is at the old length, links unchanged |
| Store.AddLink | js/editor/canvas.js:484-489 | one more link, at the old length, distinct from every earlier link even between unstored nodes; it is the link prototype set up with the given source and target; earlier links and the nodes unchanged |
| Store.TryAddNode | js/editor/canvas.js:479-482 | an undefined or null node throws a TypeError in the log line, and nothing is pushed; any other node is pushed as by `addnode` |
| Store.TryAddLink | js/editor/canvas.js:484-489 | a TypeError exactly when an endpoint is undefined or null, with no link created; otherwise the link is added as by `addlink` |
| Store.StoredLinksSetUp | js/editor/canvas.js:484-489 | every stored link was set up, so its `toJson` and `toString` never throw, whatever the node objects hold |
| Store.ParallelLinksKept | js/editor/canvas.js:484-489 | adding the same endpoints twice keeps two distinct links with those endpoints |
| Store.RemoveNode | js/editor/canvas.js:504-515 | a link survives exactly when it existed and touches neither end of the node; a node survives exactly when it existed and is not the removed one; every-endpoint-present is preserved |
| Store.TryRemoveNode | js/editor/canvas.js:504-515 | an undefined or null node throws a TypeError in the log line, leaving both arrays; otherwise it removes as `removenode` does |
| Store.RemoveNodeNoop | js/editor/canvas.js:504-515 | `removenode` changes nothing exactly when the node is not stored and no link touches it; in a connected store, any unstored node |
| Store.RemoveNodeFilters | js/editor/canvas.js:504-515 | the remaining links and nodes are the old arrays filtered, in order; each surviving link keeps its multiplicity and each touching link is gone entirely |
| Store.RemoveNodeInPlace | js/editor/canvas.js:504-515 | the two splice passes compute exactly `RemoveNode` |
| Store.RemoveNodeValid | js/editor/canvas.js:504-515 | endpoint integrity and distinct link identities survive removal, and no remaining link refers to the removed node |
| Store.RemoveLink | js/editor/canvas.js:517-524 | a link survives exactly when it existed and is not identical to the removed one; nodes unchanged; integrity preserved |
| Store.TryRemoveLink | js/editor/canvas.js:517-524 | an undefined or null link throws a TypeError in the log line, leaving the array; otherwise it removes as `removelink` does |
| Store.RemoveLinkNoop | js/editor/canvas.js:517-524 | `removelink` changes nothing exactly when no stored link is identical to the given one |
| Store.RemoveLinkInPlace | js/editor/canvas.js:517-524 | the splice pass computes exactly `RemoveLink` |
| Store.RemoveLinkValid | js/editor/canvas.js:517-524 | endpoint integrity and distinct link identities survive `removelink` |
| Store.RemoveLinkRemovesOne | js/editor/canvas.js:517-524 | with distinct identities, removing a stored link shortens the link array by exactly one |
| Store.AddLinkValid | js/editor/canvas.js:484-489 | a link between stored nodes keeps endpoint integrity and distinct identities |
| Store.AddNodeValid | js/editor/canvas.js:479-482 | adding a node keeps endpoint integrity and distinct identities |
| Store.EmptyValid | js/editor/canvas.js:146-147 | the empty arrays after `init` satisfy the store invariant |
| Gestures.DragStart | js/editor/canvas.js:247-264 | shift or ctrl starts linking from the pressed node and changes no pin; otherwise the pressed node is fixed, every other stored node unfixed, other nodes and positions untouched |
| Gestures.DragMove | js/editor/canvas.js:267-275 | outside a link gesture the pressed node's px/py grow by dx/dy and nothing else changes; during one nothing changes |
| Gestures.DragEnd | js/editor/canvas.js:278-295 | afterwards no link gesture is on; ending one forgets its source node; a move gesture ends with no change |
| Gestures.MouseDown | js/editor/canvas.js:202-211 | a shift press shows the drag line; nothing else changes, and a press without shift changes nothing |
| Gestures.MouseUp | js/editor/canvas.js:214-226 | a link from the source is added, and the drag line hidden, exactly when linking and the target is not the source; earlier links unchanged; no added link is a self-loop |
| Gestures.MouseMove | js/editor/canvas.js:184-199 | the drag line's path is set from the source node to the pointer exactly while linking; visibility is not touched |
| Gestures.Click | js/editor/canvas.js:433-452 | a prevented click ends linking (canvas handler, lines 234-244) and opens nothing; a plain click on an element toggles its popover and closes all others; other clicks change nothing |
| Gestures.InvPreserved | js/editor/canvas.js:214-295 | every handler keeps "linking implies a source node" and "at most one popover open" |
| Gestures.InitialInv | js/editor/canvas.js:159-160 | the state after `init` satisfies the invariant |
| Gestures.GesturesAddNoSelfLoops | js/editor/canvas.js:220-225 | no handler turns a store without self-loops into one with a self-loop |
| Gestures.MouseUpConnected | js/editor/canvas.js:220-225 | releasing a link gesture over a stored node, from a stored source, keeps every link's endpoints stored |
| Gestures.Moves | js/editor/canvas.js:267-275 | a run of drag moves changes only node positions |
| Gestures.MovesSum | js/editor/canvas.js:267-275 | outside a link gesture, the node's net offset after a run of moves is the sum of the deltas; other nodes unchanged |
| Gestures.MovesWhileLinking | js/editor/canvas.js:267-275 | during a link gesture drag moves change nothing |
| Gestures.LinkGesture | js/editor/canvas.js:247-295 | a shift-drag from a released over b adds exactly the link a to b and moves nothing; released over a it adds nothing |
| Gestures.MoveGesture | js/editor/canvas.js:247-295 | a plain drag leaves the node fixed at its start position plus the summed deltas, with no link added |
| Gestures.PopoverToggle | js/editor/canvas.js:433-452 | clicking an element twice opens then closes its popover; clicking another moves the single open popover there |
| Gestures.DragLineVisibility | js/editor/canvas.js:202-226 | only a shift `mousedown` shows the drag line and only a link-adding `mouseup` hides it; `dragstart`, `dragmove`, `dragend` and `click` leave it; `mousedown` and `dragstart` commute |
| Gestures.DragLineGesture | js/editor/canvas.js:184-295 | a shift drag shows the line and moves its path; it is hidden after a release over another node but stays shown after a release over the source; a ctrl-only drag never shows it |

## Left out

- The d3 force layout (`force`, charge, link distance, `force.start`): foreign library code doing floating-point physics. Positions are `real`, and rounding is not modelled.
- d3's own namespaced drag listeners installed by `force.drag` (`dragstart.force`, `dragend.force`). These are library code; only the editor's own handlers are modelled.
- `tick`: square roots and SVG path strings.
- `init`, the SVG and arrow markers, `restart`'s data joins, `dragclick` and all logging: DOM rendering and presentation.
- `keydown`/`keyup`: they have no effect.
- Popover content (`popovertitle`, `popovercontent`, `decorate`): HTML strings. Only which popovers are open is modelled.
- Node values: numbers and functions are not among the modelled JavaScript values. Methods on the prototypes are not keys a node can read.
- The shared `properties: {}` object of the prototypes is a value here. Aliasing between nodes that share it is not modelled. Link endpoints, by contrast, are references (`Records.NodeRef`).
- Store.TryRemoveLink: a link object whose endpoints are undefined, such as a bare `Object.create(Graph.Link)`, also throws in the log line. A `Store.Link` always has its endpoints, so such an argument cannot be expressed; it is never in the array anyway.
- Gestures.PinOf: a node that never had `fixed`/`px`/`py` set reads as unfixed at the origin. In the source these fields are undefined until d3 initialises them.
- Gestures.MouseUp and Gestures.MouseMove: they require `linking` to imply a source node. Without one the source would throw a TypeError. Every handler keeps that invariant (`InvPreserved`).
- Store.Splice: works on an immutable sequence rather than mutating the array in place. Callers that hold the same array object are not modelled.

=== FILE: gestures.dfy ===
/**
  The pointer handlers of js/editor/canvas.js, as pure transitions over
  the editor's state: the graph store, each node's `fixed`, `px` and `py`,
  the module variables `linking` and `srcnode`, and the set of open
  popovers, and whether the drag line is shown.

  A drag that starts with shift or ctrl held is a link gesture: `srcnode`
  records the node pressed, releasing over another node (`mouseup`) adds a
  link, and `dragend` ends the gesture. Any other drag pins the pressed
  node and moves it by the drag deltas.
 */
module Gestures {
  import opened JsValues
  import Store

  type NodeId = Store.NodeId

  /** The layout fields of a node object: `fixed`, `px`, `py`. */
  datatype Pin = Pin(fixed: bool, px: real, py: real)

  /** Modifier keys of the event that started the drag or click. */
  datatype Mods = Mods(shift: bool, ctrl: bool)

  const NoMods := Mods(false, false)

  /** A DOM element carrying a popover. */
  datatype Element = NodeElement(node: NodeId) | LinkElement(link: Store.LinkId)

  datatype Editor = Editor(
    graph: Store.Graph,
    pins: map<NodeId, Pin>,
    linking: bool,
    srcnode: Option<NodeId>,
    open: set<Element>,
    lineShown: bool)

  /** The state after `init`: empty store, not linking, nothing open, and
      the drag line created with the `hidden` class. */
  const Initial := Editor(Store.Empty, map[], false, None, {}, false)

  /** A node that was never pinned nor moved. */
  const Unpinned := Pin(false, 0.0, 0.0)

  function PinOf(e: Editor, n: NodeId): Pin {
    if n in e.pins then e.pins[n] else Unpinned
  }

  /** The editor's invariant: a link gesture always knows its source node,
      and at most one popover is open. */
  predicate Inv(e: Editor) {
    (e.linking ==> e.srcnode.Some?) && |e.open| <= 1
  }

  /** `dragstart(selected)`. With shift or ctrl held it starts a link
      gesture from `selected` and touches no node. Otherwise it pins
      `selected` and unpins every other node of the store. */
  function DragStart(e: Editor, selected: NodeId, mods: Mods): (r: Editor)
    ensures r.graph == e.graph && r.open == e.open
    ensures mods.shift || mods.ctrl ==>
      r.linking && r.srcnode == Some(selected) && r.pins == e.pins
    ensures !(mods.shift || mods.ctrl) ==>
      && r.linking == e.linking && r.srcnode == e.srcnode
      && PinOf(r, selected).fixed
      && (forall n :: n in e.graph.nodes && n != selected ==> !PinOf(r, n).fixed)
      && (forall n :: n !in e.graph.nodes && n != selected ==> PinOf(r, n) == PinOf(e, n))
      && (forall n :: PinOf(r, n).px == PinOf(e, n).px && PinOf(r, n).py == PinOf(e, n).py)
  {
    if mods.shift || mods.ctrl then
      e.(linking := true, srcnode := Some(selected))
    else
      var touched := e.pins.Keys + (set n | n in e.graph.nodes) + {selected};
      var pins := map n | n in touched ::
        if n == selected then PinOf(e, n).(fixed := true)
        else if n in e.graph.nodes then PinOf(e, n).(fixed := false)
        else PinOf(e, n);
      e.(pins := pins)
  }

  /** `dragmove(selected)` with the event's deltas: outside a link gesture
      the node's `px`/`py` move by the deltas; nothing else changes. */
  function DragMove(e: Editor, selected: NodeId, dx: real, dy: real): (r: Editor)
    ensures e.linking ==> r == e
    ensures !e.linking ==>
      && PinOf(r, selected) == PinOf(e, selected).(px := PinOf(e, selected).px + dx, py := PinOf(e, selected).py + dy)
      && (forall n :: n != selected ==> PinOf(r, n) == PinOf(e, n))
      && r.graph == e.graph && r.linking == e.linking && r.srcnode == e.srcnode && r.open == e.open
  {
    if e.linking then e
    else
      var p := PinOf(e, selected);
      e.(pins := e.pins[selected := p.(px := p.px + dx, py := p.py + dy)])
  }

  /** `dragend`: a link gesture ends here, forgetting its source; a move
      gesture leaves everything as it is. */
  function DragEnd(e: Editor): (r: Editor)
    ensures !r.linking
    ensures e.linking ==> r.srcnode == None
    ensures !e.linking ==> r == e
    ensures r.graph == e.graph && r.pins == e.pins && r.open == e.open
  {
    if e.linking then e.(linking := false, srcnode := None) else e
  }

  /** `mousedown` on a node: with shift held it shows the drag line (drops
      its `hidden` class); nothing else changes. */
  function MouseDown(e: Editor, shift: bool): (r: Editor)
    ensures r.lineShown == (shift || e.lineShown)
    ensures r.(lineShown := e.lineShown) == e
  {
    if shift then e.(lineShown := true) else e
  }

  /** `mouseup` over node `target`: during a link gesture, and only when the
      target is not the source node, a link from the source to the target
      is added and the drag line is hidden. The gesture itself stays on
      until `dragend`. */
  function MouseUp(e: Editor, target: NodeId): (r: Editor)
    requires e.linking ==> e.srcnode.Some?
    ensures e.linking && e.srcnode != Some(target) ==>
      r == e.(graph := Store.AddLink(e.graph, e.srcnode.value, target), lineShown := false)
    ensures !(e.linking && e.srcnode != Some(target)) ==> r == e
    ensures forall i :: 0 <= i < |e.graph.links| ==> Store.GetLink(r.graph, i) == Store.GetLink(e.graph, i)
    ensures forall i :: |e.graph.links| <= i < |r.graph.links| ==> r.graph.links[i].source != r.graph.links[i].target
  {
    if e.linking && e.srcnode != Some(target) then
      e.(graph := Store.AddLink(e.graph, e.srcnode.value, target), lineShown := false)
    else e
  }

  /** The path `mousemove` gives the drag line: from the source node to the
      pointer. */
  datatype Band = Band(from: NodeId, x: real, y: real)

  /** `mousemove` at (x, y): during a link gesture the drag line's path is
      set to run from the source node to the pointer; otherwise the path is
      left alone (`None`). Whether the line is visible is `lineShown`,
      which this handler does not touch. */
  function MouseMove(e: Editor, x: real, y: real): (r: Option<Band>)
    requires e.linking ==> e.srcnode.Some?
    ensures r.Some? <==> e.linking
    ensures r.Some? ==> r.value == Band(e.srcnode.value, x, y)
  {
    if e.linking then Some(Band(e.srcnode.value, x, y)) else None
  }

  /** A click, dispatched first to the element under the pointer (if any)
      and then, unless that element's handler stops propagation, to the
      canvas. `prevented` is the `defaultPrevented` flag a drag sets.

      An element's handler ignores a prevented click (which then reaches
      the canvas); otherwise, without shift or ctrl, it hides every other
      popover and toggles its own, and in all cases stops propagation. The
      canvas handler ends any link gesture on a prevented click and does
      nothing else. */
  function Click(e: Editor, on: Option<Element>, prevented: bool, mods: Mods): (r: Editor)
    ensures r.graph == e.graph && r.pins == e.pins && r.srcnode == e.srcnode
    ensures prevented ==> !r.linking && r.open == e.open
    ensures !prevented ==> r.linking == e.linking
    ensures !prevented && on.Some? && !(mods.shift || mods.ctrl) ==>
      && (on.value in r.open <==> on.value !in e.open)
      && (forall x :: x in r.open ==> x == on.value)
    ensures (on.None? || mods.shift || mods.ctrl) ==> r.open == e.open
  {
    if prevented then e.(linking := false)
    else if on.None? || mods.shift || mods.ctrl then e
    else if on.value in e.open then e.(open := {})
    else e.(open := {on.value})
  }

  /** Every handler keeps the invariant. */
  lemma InvPreserved(e: Editor, n: NodeId, mods: Mods, dx: real, dy: real, on: Option<Element>, prevented: bool)
    requires Inv(e)
    ensures Inv(DragStart(e, n, mods))
    ensures Inv(DragMove(e, n, dx, dy))
    ensures Inv(DragEnd(e))
    ensures Inv(MouseUp(e, n))
    ensures Inv(MouseDown(e, mods.shift))
    ensures Inv(Click(e, on, prevented, mods))
  {
    var r := Click(e, on, prevented, mods);
    if !prevented && on.Some? && !(mods.shift || mods.ctrl) {
      assert r.open <= {on.value};
    }
  }

  lemma InitialInv()
    ensures Inv(Initial)
  {
  }

  /** No link of the store is a self-loop. */
  predicate NoSelfLoops(g: Store.Graph) {
    forall l :: l in g.links ==> l.source != l.target
  }

  /** A gesture never creates a self-loop: the handlers keep a store
      without self-loops so. */
  lemma GesturesAddNoSelfLoops(e: Editor, n: NodeId, mods: Mods, dx: real, dy: real, on: Option<Element>, prevented: bool)
    requires Inv(e) && NoSelfLoops(e.graph)
    ensures NoSelfLoops(DragStart(e, n, mods).graph)
    ensures NoSelfLoops(DragMove(e, n, dx, dy).graph)
    ensures NoSelfLoops(DragEnd(e).graph)
    ensures NoSelfLoops(MouseUp(e, n).graph)
    ensures NoSelfLoops(Click(e, on, prevented, mods).graph)
  {
    var r := MouseUp(e, n).graph;
    forall l | l in r.links
      ensures l.source != l.target
    {
      if l !in e.graph.links {
        assert l == r.links[|e.graph.links|];
      }
    }
  }

  /** A link gesture releasing over a node of the store keeps every link's
      endpoints in the store. */
  lemma MouseUpConnected(e: Editor, target: NodeId)
    requires Inv(e) && Store.Valid(e.graph)
    requires e.linking ==> e.srcnode.value in e.graph.nodes
    requires target in e.graph.nodes
    ensures Store.Valid(MouseUp(e, target).graph)
  {
    if e.linking && e.srcnode != Some(target) {
      Store.AddLinkValid(e.graph, e.srcnode.value, target);
    }
  }

  /** A run of `dragmove` events on one node: only pins ever change. */
  function Moves(e: Editor, n: NodeId, deltas: seq<(real, real)>): (r: Editor)
    ensures r.graph == e.graph && r.linking == e.linking && r.srcnode == e.srcnode && r.open == e.open
    decreases |deltas|
  {
    if deltas == [] then e
    else Moves(DragMove(e, n, deltas[0].0, deltas[0].1), n, deltas[1..])
  }

  function SumX(deltas: seq<(real, real)>): real
    decreases |deltas|
  {
    if deltas == [] then 0.0 else deltas[0].0 + SumX(deltas[1..])
  }

  function SumY(deltas: seq<(real, real)>): real
    decreases |deltas|
  {
    if deltas == [] then 0.0 else deltas[0].1 + SumY(deltas[1..])
  }

  /** Outside a link gesture, the net offset of a run of moves is the sum
      of the deltas; no other node and nothing else changes. */
  lemma {:induction false} MovesSum(e: Editor, n: NodeId, deltas: seq<(real, real)>)
    requires !e.linking
    ensures PinOf(Moves(e, n, deltas), n).px == PinOf(e, n).px + SumX(deltas)
    ensures PinOf(Moves(e, n, deltas), n).py == PinOf(e, n).py + SumY(deltas)
    ensures PinOf(Moves(e, n, deltas), n).fixed == PinOf(e, n).fixed
    ensures forall m :: m != n ==> PinOf(Moves(e, n, deltas), m) == PinOf(e, m)
    ensures Moves(e, n, deltas).graph == e.graph && !Moves(e, n, deltas).linking
    decreases |deltas|
  {
    if deltas != [] {
      var e1 := DragMove(e, n, deltas[0].0, deltas[0].1);
      MovesSum(e1, n, deltas[1..]);
    }
  }

  /** During a link gesture the moves change nothing. */
  lemma {:induction false} MovesWhileLinking(e: Editor, n: NodeId, deltas: seq<(real, real)>)
    requires e.linking
    ensures Moves(e, n, deltas) == e
    decreases |deltas|
  {
    if deltas != [] {
      MovesWhileLinking(e, n, deltas[1..]);
    }
  }

  /** A shift-drag from a to b creates exactly one link a -> b and moves
      no node; releasing over a itself creates nothing. */
  lemma LinkGesture(e: Editor, a: NodeId, b: NodeId, deltas: seq<(real, real)>)
    requires Inv(e) && !e.linking
    ensures var s := DragStart(e, a, Mods(true, false));
      var r := DragEnd(MouseUp(Moves(s, a, deltas), b));
      && r.pins == e.pins && !r.linking && r.srcnode == None
      && (a != b ==> r.graph == Store.AddLink(e.graph, a, b))
      && (a == b ==> r.graph == e.graph)
  {
    var s := DragStart(e, a, Mods(true, false));
    MovesWhileLinking(s, a, deltas);
  }

  /** A plain drag of node a ends with a pinned at its start position plus
      the sum of the deltas; no link is created. */
  lemma MoveGesture(e: Editor, a: NodeId, deltas: seq<(real, real)>, release: NodeId)
    requires Inv(e) && !e.linking
    ensures var s := DragStart(e, a, NoMods);
      var r := DragEnd(MouseUp(Moves(s, a, deltas), release));
      && PinOf(r, a) == Pin(true, PinOf(e, a).px + SumX(deltas), PinOf(e, a).py + SumY(deltas))
      && r.graph == e.graph && !r.linking
  {
    var s := DragStart(e, a, NoMods);
    MovesSum(s, a, deltas);
  }

  /** Clicking an element twice opens and then closes its popover;
      clicking another element while one is open moves the popover. */
  lemma PopoverToggle(e: Editor, x: Element, y: Element)
    requires e.open == {}
    requires x != y
    ensures Click(e, Some(x), false, NoMods).open == {x}
    ensures Click(Click(e, Some(x), false, NoMods), Some(x), false, NoMods).open == {}
    ensures Click(Click(e, Some(x), false, NoMods), Some(y), false, NoMods).open == {y}
  {
  }

  /** Only `mousedown` and `mouseup` touch the drag line's visibility:
      shift-`mousedown` shows it, and only a `mouseup` that adds a link hides
      it. Every other handler, including `dragend` and a prevented click,
      leaves it as it was; `mousedown` and `dragstart` commute. */
  lemma DragLineVisibility(e: Editor, n: NodeId, mods: Mods, shift: bool, dx: real, dy: real, on: Option<Element>, prevented: bool)
    requires Inv(e)
    ensures DragStart(e, n, mods).lineShown == e.lineShown
    ensures DragMove(e, n, dx, dy).lineShown == e.lineShown
    ensures DragEnd(e).lineShown == e.lineShown
    ensures Click(e, on, prevented, mods).lineShown == e.lineShown
    ensures MouseUp(e, n).lineShown <==> e.lineShown && !(e.linking && e.srcnode != Some(n))
    ensures MouseDown(DragStart(e, n, mods), shift) == DragStart(MouseDown(e, shift), n, mods)
  {
  }

  /** The drag line over a whole link gesture. A shift drag from a shows the
      line and moves its path with the pointer; released over another node
      b it adds the link and hides the line, released over a itself it
      leaves the line shown after `dragend`. A ctrl-only drag sets the path
      but never shows the line. */
  lemma DragLineGesture(e: Editor, a: NodeId, b: NodeId, x: real, y: real)
    requires Inv(e) && !e.linking && !e.lineShown
    ensures var s := DragStart(MouseDown(e, true), a, Mods(true, false));
      && s.lineShown && MouseMove(s, x, y) == Some(Band(a, x, y))
      && (a != b ==> !DragEnd(MouseUp(s, b)).lineShown)
      && DragEnd(MouseUp(s, a)).lineShown && !DragEnd(MouseUp(s, a)).linking
    ensures var c := DragStart(MouseDown(e, false), a, Mods(false, true));
      && !c.lineShown && MouseMove(c, x, y) == Some(Band(a, x, y))
      && !DragEnd(MouseUp(c, b)).lineShown
  {
  }
}

=== FILE: js_values.dfy ===
/**
  The JavaScript values the editor's record helpers handle, and the two
  small wrappers the rest of the model uses for "maybe absent" and
  "throws a TypeError".
 */
module JsValues {

  /** An optional value; `None` stands for JavaScript's `undefined`. */
  datatype Option<+T> = None | Some(value: T)

  /** The outcome of an expression that may throw: reading a property of
      `undefined` raises a TypeError in JavaScript. */
  datatype Result<+T> = Ok(value: T) | TypeError

  /** The JavaScript values stored on editor records. Numbers and functions
      are not part of this model. */
  datatype Value =
    | Undefined
    | Null
    | Bool(b: bool)
    | Str(s: string)
    | Obj(fields: map<string, Value>)

  /** The value is anything but `undefined`. */
  predicate Defined(v: Value) {
    !v.Undefined?
  }

  /** `String(v)`: the text a value turns into when it is spliced into a string. */
  function Text(v: Value): string {
    match v
    case Undefined => "undefined"
    case Null => "null"
    case Bool(b) => if b then "true" else "false"
    case Str(s) => s
    case Obj(_) => "[object Object]"
  }

  /** A value as an argument of the `{}` template: absent when undefined,
      otherwise its text. */
  function AsArgument(v: Value): (r: Option<string>)
    ensures r.Some? <==> Defined(v)
    ensures r.Some? ==> r.value == Text(v)
  {
    if v.Undefined? then None else Some(Text(v))
  }
}

=== FILE: records.dfy ===
/**
  The `Graph.Node` and `Graph.Link` prototypes of js/editor/graph.js.

  A node is the set of keys assigned on the object itself; reading any
  other key falls through to the `Graph.Node` prototype, whose data keys
  are `name ""`, `label ""`, `type "Node"` and `properties {}`. A link
  holds references to its two endpoint nodes (undefined on the prototype)
  and its properties; `toJson` and `toString` read the endpoint objects
  as they stand when they are called.
 */
module Records {
  import opened JsValues
  import Template

  datatype Node = Node(own: map<string, Value>)

  /** `Object.create(Graph.Node)`: a node with no keys of its own. */
  const NodePrototype := Node(map[])

  /** The data keys of the `Graph.Node` prototype and their values. */
  function NodeDefault(key: string): Value {
    if key == "name" then Str("")
    else if key == "label" then Str("")
    else if key == "type" then Str("Node")
    else if key == "properties" then Obj(map[])
    else Undefined
  }

  /** `node[key]`: the node's own value, else the prototype's. */
  function Get(n: Node, key: string): Value {
    if key in n.own then n.own[key] else NodeDefault(key)
  }

  /** `node.init(values)`: copies every key of `values` onto the node and
      returns it; keys not in `values` read as before. */
  function Init(n: Node, values: map<string, Value>): (r: Node)
    ensures forall k :: k in values ==> Get(r, k) == values[k]
    ensures forall k :: k !in values ==> Get(r, k) == Get(n, k)
  {
    Node(n.own + values)
  }

  /** A freshly created node keeps the prototype defaults for every data
      key that `init` does not set. */
  lemma InitKeepsDefaults(values: map<string, Value>)
    ensures Get(Init(NodePrototype, values), "name") == (if "name" in values then values["name"] else Str(""))
    ensures Get(Init(NodePrototype, values), "label") == (if "label" in values then values["label"] else Str(""))
    ensures Get(Init(NodePrototype, values), "type") == (if "type" in values then values["type"] else Str("Node"))
    ensures Get(Init(NodePrototype, values), "properties") == (if "properties" in values then values["properties"] else Obj(map[]))
  {
  }

  /** Two successive `init` calls act as one with the later values winning. */
  lemma InitTwice(n: Node, a: map<string, Value>, b: map<string, Value>)
    ensures Init(Init(n, a), b) == Init(n, a + b)
    ensures Init(Init(n, a), a) == Init(n, a)
  {
    assert (n.own + a) + b == n.own + (a + b);
    assert (n.own + a) + a == n.own + a;
  }

  /** The record `toJson` exports. */
  datatype NodeJson = NodeJson(name: Value, nodeLabel: Value, nodeType: Value, properties: Value)

  /** `node.toJson()` */
  function NodeToJson(n: Node): (r: NodeJson)
    ensures r.name == (if "name" in n.own then n.own["name"] else Str(""))
    ensures r.nodeLabel == (if "label" in n.own then n.own["label"] else Str(""))
    ensures r.nodeType == (if "type" in n.own then n.own["type"] else Str("Node"))
    ensures r.properties == (if "properties" in n.own then n.own["properties"] else Obj(map[]))
  {
    NodeJson(Get(n, "name"), Get(n, "label"), Get(n, "type"), Get(n, "properties"))
  }

  /** The export of a node built by `init` holds exactly the four data
      fields: the given values, or the prototype defaults. */
  lemma ExportAfterInit(values: map<string, Value>)
    ensures NodeToJson(Init(NodePrototype, values)) == NodeJson(
      if "name" in values then values["name"] else Str(""),
      if "label" in values then values["label"] else Str(""),
      if "type" in values then values["type"] else Str("Node"),
      if "properties" in values then values["properties"] else Obj(map[]))
  {
  }

  /** Keys other than the four data keys never reach the export. */
  lemma ExportIgnoresOtherKeys(n: Node, key: string, v: Value)
    requires key != "name" && key != "label" && key != "type" && key != "properties"
    ensures NodeToJson(Init(n, map[key := v])) == NodeToJson(n)
  {
  }

  const NodePieces: seq<string> := ["Node(name='", "',label='", "',type='", "')"]

  /** The template of `Node.toString`. */
  const NodeTemplate: string := "Node(name='{}',label='{}',type='{}')"

  lemma NoBraceInNodePieces()
    ensures forall i :: 0 <= i < |NodePieces| ==> '{' !in NodePieces[i]
  {
    assert '{' !in NodePieces[0];
    assert '{' !in NodePieces[1];
    assert '{' !in NodePieces[2];
    assert '{' !in NodePieces[3];
  }

  lemma NodeTemplateWoven()
    ensures NodeTemplate == Template.Weave(NodePieces, Template.Braces(3))
  {
  }

  /** The line `Node.toString` prints for the given field texts. */
  function NodeLine(x: string, y: string, z: string): string {
    "Node(name='" + x + "',label='" + y + "',type='" + z + "')"
  }

  lemma NodeLineBlanks(x: string, y: string, z: string)
    ensures x == "" && y == "" && z == "" ==> NodeLine(x, y, z) == "Node(name='',label='',type='')"
    ensures y == "" && z == "" ==> NodeLine(x, y, z) == "Node(name='" + x + "',label='',type='')"
    ensures z == "" ==> NodeLine(x, y, z) == "Node(name='" + x + "',label='" + y + "',type='')"
  {
  }

  lemma NodeTemplateShape(args: seq<Option<string>>)
    ensures Template.Format(NodeTemplate, args)
         == NodeLine(Template.Arg(args, 0), Template.Arg(args, 1), Template.Arg(args, 2))
  {
    var p := NodePieces;
    NoBraceInNodePieces();
    NodeTemplateWoven();
    Template.FormatWoven(p, args);
    var v := Template.Args(args, 0, 3);
    assert v == [Template.Arg(args, 0), Template.Arg(args, 1), Template.Arg(args, 2)];
    Template.WeaveThree(p[0], p[1], p[2], p[3], v[0], v[1], v[2]);
  }

  /** The text of `Node.toString` for the given name, label and type. */
  lemma NodeText(a: Value, b: Value, c: Value)
    ensures Template.Format(NodeTemplate, [AsArgument(a), AsArgument(b), AsArgument(c)])
         == NodeLine(if Defined(a) then Text(a) else "",
                     if Defined(a) && Defined(b) then Text(b) else "",
                     if Defined(a) && Defined(b) && Defined(c) then Text(c) else "")
  {
    var args := [AsArgument(a), AsArgument(b), AsArgument(c)];
    NodeTemplateShape(args);
    Template.ArgsOfThree(args[0], args[1], args[2]);
  }

  /** `node.toString()`: the node's name, label and type spliced into the
      template; from the first undefined one on, the fields print empty. */
  function NodeToString(n: Node): (r: string)
    ensures Defined(Get(n, "name")) && Defined(Get(n, "label")) && Defined(Get(n, "type")) ==>
      r == "Node(name='" + Text(Get(n, "name")) + "',label='" + Text(Get(n, "label"))
           + "',type='" + Text(Get(n, "type")) + "')"
    ensures !Defined(Get(n, "name")) ==> r == "Node(name='',label='',type='')"
    ensures Defined(Get(n, "name")) && !Defined(Get(n, "label")) ==>
      r == "Node(name='" + Text(Get(n, "name")) + "',label='',type='')"
    ensures Defined(Get(n, "name")) && Defined(Get(n, "label")) && !Defined(Get(n, "type")) ==>
      r == "Node(name='" + Text(Get(n, "name")) + "',label='" + Text(Get(n, "label")) + "',type='')"
  {
    NodeText(Get(n, "name"), Get(n, "label"), Get(n, "type"));
    NodeLineBlanks(
      if Defined(Get(n, "name")) then Text(Get(n, "name")) else "",
      if Defined(Get(n, "name")) && Defined(Get(n, "label")) then Text(Get(n, "label")) else "",
      if Defined(Get(n, "name")) && Defined(Get(n, "label")) && Defined(Get(n, "type")) then Text(Get(n, "type")) else "");
    Template.Format(NodeTemplate, [AsArgument(Get(n, "name")), AsArgument(Get(n, "label")), AsArgument(Get(n, "type"))])
  }

  /** A reference to a node object. Links hold references, so what a link
      shows of its endpoints is what those objects hold when it is read. */
  type NodeRef = nat

  /** The node objects as they stand: what each reference points to. */
  type Nodes = NodeRef -> Node

  /** `nodes` with the object at `n` replaced by `v`, as after an assignment
      to one of its keys. */
  function Assign(nodes: Nodes, n: NodeRef, v: Node): (r: Nodes)
    ensures r(n) == v
    ensures forall m :: m != n ==> r(m) == nodes(m)
  {
    (m: NodeRef) => if m == n then v else nodes(m)
  }

  /** A link: references to its endpoints (undefined until `setup`) and its
      properties. */
  datatype Link = Link(source: Option<NodeRef>, target: Option<NodeRef>, properties: Value)

  /** `Object.create(Graph.Link)` */
  const LinkPrototype := Link(None, None, Obj(map[]))

  /** `link.setup(source, target)`: sets both endpoints and returns the link;
      the properties stay as they were, and the link is left as it was
      exactly when it already joined these endpoints. */
  function Setup(l: Link, source: NodeRef, target: NodeRef): (r: Link)
    ensures r.source == Some(source) && r.target == Some(target)
    ensures r.properties == l.properties
    ensures r == l <==> l.source == Some(source) && l.target == Some(target)
  {
    l.(source := Some(source), target := Some(target))
  }

  /** The record `Link.toJson` exports. */
  datatype LinkJson = LinkJson(source: Value, target: Value, properties: Value)

  /** `link.toJson()` over the current node objects: reading `source.name`
      or `target.name` throws while an endpoint is undefined. */
  function LinkToJson(l: Link, nodes: Nodes): (r: Result<LinkJson>)
    ensures r.Ok? <==> l.source.Some? && l.target.Some?
  {
    if l.source.None? || l.target.None? then TypeError
    else Ok(LinkJson(Get(nodes(l.source.value), "name"), Get(nodes(l.target.value), "name"), l.properties))
  }

  /** A set-up link exports its endpoints by name, with its properties. */
  lemma SetupThenExport(l: Link, s: NodeRef, t: NodeRef, nodes: Nodes)
    ensures LinkToJson(Setup(l, s, t), nodes) == Ok(LinkJson(Get(nodes(s), "name"), Get(nodes(t), "name"), l.properties))
    ensures LinkToJson(LinkPrototype, nodes) == TypeError
  {
  }

  /** The export reads the endpoints when it runs: a source renamed by
      `init` after `setup` is exported under its new name. */
  lemma ExportSeesRename(l: Link, s: NodeRef, t: NodeRef, nodes: Nodes, name: Value)
    ensures var renamed := Assign(nodes, s, Init(nodes(s), map["name" := name]));
      LinkToJson(Setup(l, s, t), renamed).value.source == name
  {
  }

  /** Relabelling the endpoint objects does not change a link's export. */
  lemma ExportIgnoresLabels(l: Link, s: NodeRef, t: NodeRef, nodes: Nodes, a: Value, b: Value)
    ensures var relabelled := Assign(Assign(nodes, s, Init(nodes(s), map["label" := a])), t, Init(nodes(t), map["label" := b]));
      LinkToJson(Setup(l, s, t), relabelled) == LinkToJson(Setup(l, s, t), nodes)
  {
  }

  const LinkPieces: seq<string> := ["Link(source='", "',label='", "')"]

  /** The template of `Link.toString`; its second field is called `label`
      although it shows the target's label. */
  const LinkTemplate: string := "Link(source='{}',label='{}')"

  /** The line `Link.toString` prints for the given label texts. */
  function LinkLine(x: string, y: string): string {
    "Link(source='" + x + "',label='" + y + "')"
  }

  lemma LinkLineBlanks(x: string, y: string)
    ensures x == "" && y == "" ==> LinkLine(x, y) == "Link(source='',label='')"
    ensures y == "" ==> LinkLine(x, y) == "Link(source='" + x + "',label='')"
  {
  }

  lemma LinkTemplateShape(args: seq<Option<string>>)
    ensures Template.Format(LinkTemplate, args) == LinkLine(Template.Arg(args, 0), Template.Arg(args, 1))
  {
    var p := LinkPieces;
    NoBraceInLinkPieces();
    LinkTemplateWoven();
    Template.FormatWoven(p, args);
    var v := Template.Args(args, 0, 2);
    assert v == [Template.Arg(args, 0), Template.Arg(args, 1)];
    Template.WeaveTwo(p[0], p[1], p[2], v[0], v[1]);
  }

  lemma NoBraceInLinkPieces()
    ensures forall i :: 0 <= i < |LinkPieces| ==> '{' !in LinkPieces[i]
  {
    assert '{' !in LinkPieces[0];
    assert '{' !in LinkPieces[1];
    assert '{' !in LinkPieces[2];
  }

  lemma LinkTemplateWoven()
    ensures LinkTemplate == Template.Weave(LinkPieces, Template.Braces(2))
  {
  }

  /** The text of `Link.toString` for the given source and target labels. */
  lemma LinkText(a: Value, b: Value)
    ensures Template.Format(LinkTemplate, [AsArgument(a), AsArgument(b)])
         == LinkLine(if Defined(a) then Text(a) else "", if Defined(a) && Defined(b) then Text(b) else "")
  {
    var args := [AsArgument(a), AsArgument(b)];
    LinkTemplateShape(args);
    Template.ArgsOfTwo(args[0], args[1]);
  }

  /** `link.toString()` over the current node objects: the labels of
      source and target; throws while an endpoint is undefined. */
  function LinkToString(l: Link, nodes: Nodes): (r: Result<string>)
    ensures r.Ok? <==> l.source.Some? && l.target.Some?
    ensures r.Ok? && Defined(Get(nodes(l.source.value), "label")) && Defined(Get(nodes(l.target.value), "label")) ==>
      r.value == "Link(source='" + Text(Get(nodes(l.source.value), "label")) + "',label='"
                 + Text(Get(nodes(l.target.value), "label")) + "')"
    ensures r.Ok? && !Defined(Get(nodes(l.source.value), "label")) ==> r.value == "Link(source='',label='')"
    ensures r.Ok? && Defined(Get(nodes(l.source.value), "label")) && !Defined(Get(nodes(l.target.value), "label")) ==>
      r.value == "Link(source='" + Text(Get(nodes(l.source.value), "label")) + "',label='')"
  {
    if l.source.None? || l.target.None? then TypeError
    else
      var a, b := Get(nodes(l.source.value), "label"), Get(nodes(l.target.value), "label");
      LinkText(a, b);
      LinkLineBlanks(if Defined(a) then Text(a) else "", if Defined(a) && Defined(b) then Text(b) else "");
      Ok(Template.Format(LinkTemplate, [AsArgument(a), AsArgument(b)]))
  }
}

=== FILE: store.dfy ===
/**
  The graph store of js/editor/canvas.js: the node array `g_nodes` and the
  link array `links`, appended to by `addnode`/`addlink`, indexed by
  `getnode`/`getlink`, and filtered in place by the splice loop `_remove`
  on which `removenode` and `removelink` are built.

  Objects are compared by identity (`===`) in the source. A node is its
  identity here; a link carries its own identity, handed out from
  `nextLink` when `addlink` creates the link object, and the ids of its
  two endpoint nodes.
 */
module Store {
  import opened JsValues
  import Records

  type NodeId = Records.NodeRef
  type LinkId = nat

  /** A link object of the array: its identity and the endpoints that
      `setup(source, target)` gave it. */
  datatype Link = Link(id: LinkId, source: NodeId, target: NodeId)

  /** The `Graph.Link` object a stored link is: the prototype set up with
      its two endpoints. */
  function View(l: Link): Records.Link {
    Records.Link(Some(l.source), Some(l.target), Records.LinkPrototype.properties)
  }

  datatype Graph = Graph(nodes: seq<NodeId>, links: seq<Link>, nextLink: LinkId)

  /** The arrays right after `init`. */
  const Empty := Graph([], [], 0)

  /** The elements of s for which `drop` is false, in their original order. */
  function Filter<T(!new)>(s: seq<T>, drop: T -> bool): (r: seq<T>)
    ensures |r| <= |s|
    ensures forall x :: x in r <==> x in s && !drop(x)
  {
    if s == [] then []
    else if drop(s[0]) then Filter(s[1..], drop)
    else [s[0]] + Filter(s[1..], drop)
  }

  lemma {:induction false} FilterAppend<T(!new)>(a: seq<T>, b: seq<T>, drop: T -> bool)
    ensures Filter(a + b, drop) == Filter(a, drop) + Filter(b, drop)
    decreases |a|
  {
    if a == [] {
      assert a + b == b;
    } else {
      assert (a + b)[1..] == a[1..] + b;
      FilterAppend(a[1..], b, drop);
    }
  }

  /** Filtering keeps every element's multiplicity, except that the dropped
      elements disappear entirely. */
  lemma {:induction false} FilterCounts<T(!new)>(s: seq<T>, drop: T -> bool, x: T)
    ensures multiset(Filter(s, drop))[x] == if drop(x) then 0 else multiset(s)[x]
    decreases |s|
  {
    if s != [] {
      FilterCounts(s[1..], drop, x);
      assert s == [s[0]] + s[1..];
    }
  }

  /** A sequence in which nothing is dropped comes back unchanged. */
  lemma {:induction false} FilterNone<T(!new)>(s: seq<T>, drop: T -> bool)
    requires forall i :: 0 <= i < |s| ==> !drop(s[i])
    ensures Filter(s, drop) == s
    decreases |s|
  {
    if s != [] {
      FilterNone(s[1..], drop);
    }
  }

  /** `_remove(array, filter)`: walks the array with index i, splicing out
      the element at i when the filter holds and advancing i otherwise, so
      adjacent matches are all removed. */
  method Splice<T(!new)>(a: seq<T>, drop: T -> bool) returns (r: seq<T>)
    ensures r == Filter(a, drop)
  {
    r := a;
    var i := 0;
    ghost var j := 0;
    while i < |r|
      invariant 0 <= i <= |r| && 0 <= j <= |a|
      invariant r[..i] == Filter(a[..j], drop)
      invariant r[i..] == a[j..]
      decreases |r| - i
    {
      assert r[i] == a[j];
      assert a[..j + 1] == a[..j] + [a[j]];
      FilterAppend(a[..j], [a[j]], drop);
      assert r[i + 1..] == a[j + 1..];
      if drop(r[i]) {
        assert (r[..i] + r[i + 1..])[i..] == r[i + 1..];
        r := r[..i] + r[i + 1..];
      } else {
        assert r[..i + 1] == r[..i] + [r[i]];
        i := i + 1;
      }
      j := j + 1;
    }
    assert a[..j] == a;
  }

  /** `getnode(i)`: the node at index i, undefined when out of range. */
  function GetNode(g: Graph, i: int): (r: Option<NodeId>)
    ensures r.Some? <==> 0 <= i < |g.nodes|
    ensures r.Some? ==> r.value == g.nodes[i]
  {
    if 0 <= i < |g.nodes| then Some(g.nodes[i]) else None
  }

  /** `getlink(i)`: the link at index i, undefined when out of range. */
  function GetLink(g: Graph, i: int): (r: Option<Link>)
    ensures r.Some? <==> 0 <= i < |g.links|
    ensures r.Some? ==> r.value == g.links[i]
  {
    if 0 <= i < |g.links| then Some(g.links[i]) else None
  }

  /** `addnode(node)`: pushes the node. Every earlier index reads as before,
      the new node sits at the old length, and the links are untouched. */
  function AddNode(g: Graph, n: NodeId): (r: Graph)
    ensures |r.nodes| == |g.nodes| + 1
    ensures forall i :: 0 <= i < |g.nodes| ==> GetNode(r, i) == GetNode(g, i)
    ensures GetNode(r, |g.nodes|) == Some(n)
    ensures r.links == g.links && r.nextLink == g.nextLink
  {
    g.(nodes := g.nodes + [n])
  }

  /** `addlink(source, target)`: pushes a new link object,
      `Object.create(Graph.Link).setup(source, target)`, joining the two
      nodes. There is no check against self-loops or parallel links. */
  function AddLink(g: Graph, source: NodeId, target: NodeId): (r: Graph)
    ensures |r.links| == |g.links| + 1
    ensures View(r.links[|g.links|]) == Records.Setup(Records.LinkPrototype, source, target)
    ensures forall i :: 0 <= i < |g.links| ==> GetLink(r, i) == GetLink(g, i)
    ensures GetLink(r, |g.links|) == Some(Link(g.nextLink, source, target))
    ensures r.nodes == g.nodes && r.nextLink == g.nextLink + 1
    ensures FreshIds(g) ==> FreshIds(r)
  {
    Graph(g.nodes, g.links + [Link(g.nextLink, source, target)], g.nextLink + 1)
  }

  /** `addnode(node)` as called: its log line first calls `node.toString()`,
      which throws a TypeError when the argument is undefined or null, and
      the array is then left as it was. */
  function TryAddNode(g: Graph, node: Option<NodeId>): (r: Result<Graph>)
    ensures r.TypeError? <==> node.None?
    ensures r.Ok? ==> r.value == AddNode(g, node.value)
  {
    if node.None? then TypeError else Ok(AddNode(g, node.value))
  }

  /** `addlink(source, target)` as called: its log line first reads
      `source.label` and `target.label`, which throws a TypeError when
      either is undefined or null; no link is created then. */
  function TryAddLink(g: Graph, source: Option<NodeId>, target: Option<NodeId>): (r: Result<Graph>)
    ensures r.TypeError? <==> source.None? || target.None?
    ensures r.Ok? ==> r.value == AddLink(g, source.value, target.value)
  {
    if source.None? || target.None? then TypeError else Ok(AddLink(g, source.value, target.value))
  }

  /** Every link of the array was made by `setup`, so its `toJson` and
      `toString` never throw, whatever the node objects hold. */
  lemma StoredLinksSetUp(g: Graph, nodes: Records.Nodes)
    ensures forall l :: l in g.links ==> Records.LinkToJson(View(l), nodes).Ok?
    ensures forall l :: l in g.links ==> Records.LinkToString(View(l), nodes).Ok?
  {
  }

  /** The filter `removenode` applies to the links. */
  predicate Touches(n: NodeId, l: Link) {
    l.source == n || l.target == n
  }

  /** The filter `removelink` applies: identity of the link objects. */
  predicate SameLink(link: Link, l: Link) {
    l.id == link.id
  }

  /** Every link's endpoints are in the node array. */
  predicate Connected(g: Graph) {
    forall l :: l in g.links ==> l.source in g.nodes && l.target in g.nodes
  }

  /** `removenode(node)`: first drops every link with the node as an
      endpoint, then every occurrence of the node; the remaining links and
      nodes keep their order. */
  function RemoveNode(g: Graph, n: NodeId): (r: Graph)
    ensures forall l :: l in r.links <==> l in g.links && !Touches(n, l)
    ensures forall m :: m in r.nodes <==> m in g.nodes && m != n
    ensures r.nextLink == g.nextLink
    ensures Connected(g) ==> Connected(r)
  {
    Graph(Filter(g.nodes, m => m == n), Filter(g.links, l => Touches(n, l)), g.nextLink)
  }

  /** `removenode` keeps the remaining links and nodes in their order and
      with their multiplicity: it is exactly the two filters, so
      `FilterAppend` and `FilterCounts` apply to it. */
  lemma RemoveNodeFilters(g: Graph, n: NodeId)
    ensures RemoveNode(g, n).links == Filter(g.links, l => Touches(n, l))
    ensures RemoveNode(g, n).nodes == Filter(g.nodes, m => m == n)
    ensures forall l :: multiset(RemoveNode(g, n).links)[l] == if Touches(n, l) then 0 else multiset(g.links)[l]
  {
    forall l {
      FilterCounts(g.links, l => Touches(n, l), l);
    }
  }

  /** `removenode` as the source runs it: two passes of the splice loop. */
  method RemoveNodeInPlace(g: Graph, n: NodeId) returns (r: Graph)
    ensures r == RemoveNode(g, n)
  {
    var links := Splice(g.links, l => Touches(n, l));
    var nodes := Splice(g.nodes, m => m == n);
    r := Graph(nodes, links, g.nextLink);
  }

  /** `removenode(node)` as called: its log line first reads `node.label`,
      which throws a TypeError when the argument is undefined or null; the
      arrays are then left as they were. */
  function TryRemoveNode(g: Graph, node: Option<NodeId>): (r: Result<Graph>)
    ensures r.TypeError? <==> node.None?
    ensures r.Ok? ==> r.value == RemoveNode(g, node.value)
  {
    if node.None? then TypeError else Ok(RemoveNode(g, node.value))
  }

  /** `removelink(link)`: drops the links identical to `link`; the other
      links keep their order and the nodes are untouched. */
  function RemoveLink(g: Graph, link: Link): (r: Graph)
    ensures forall l :: l in r.links <==> l in g.links && l.id != link.id
    ensures r.nodes == g.nodes && r.nextLink == g.nextLink
    ensures Connected(g) ==> Connected(r)
  {
    g.(links := Filter(g.links, l => SameLink(link, l)))
  }

  /** `removelink` as the source runs it: one pass of the splice loop. */
  method RemoveLinkInPlace(g: Graph, link: Link) returns (r: Graph)
    ensures r == RemoveLink(g, link)
  {
    var links := Splice(g.links, l => SameLink(link, l));
    r := g.(links := links);
  }

  /** `removenode` leaves the store as it was exactly for a node that is
      not stored and that no link touches; in a connected store that is
      every node outside the node array. */
  lemma {:induction false} RemoveNodeNoop(g: Graph, n: NodeId)
    ensures RemoveNode(g, n) == g <==> n !in g.nodes && forall l :: l in g.links ==> !Touches(n, l)
    ensures Connected(g) && n !in g.nodes ==> RemoveNode(g, n) == g
  {
    if n !in g.nodes && forall l :: l in g.links ==> !Touches(n, l) {
      FilterNone(g.nodes, m => m == n);
      FilterNone(g.links, l => Touches(n, l));
    }
  }

  /** `removelink` leaves the store as it was exactly when no stored link
      is identical to the given one. */
  lemma {:induction false} RemoveLinkNoop(g: Graph, link: Link)
    ensures RemoveLink(g, link) == g <==> forall l :: l in g.links ==> l.id != link.id
  {
    if forall l :: l in g.links ==> l.id != link.id {
      FilterNone(g.links, l => SameLink(link, l));
    }
  }

  /** `removelink(link)` as called: its log line first reads
      `link.source.label`, which throws a TypeError when the argument is
      undefined or null; the array is then left as it was. */
  function TryRemoveLink(g: Graph, link: Option<Link>): (r: Result<Graph>)
    ensures r.TypeError? <==> link.None?
    ensures r.Ok? ==> r.value == RemoveLink(g, link.value)
  {
    if link.None? then TypeError else Ok(RemoveLink(g, link.value))
  }

  /** Link identities are below `nextLink` and pairwise distinct: every
      `addlink` creates a new object. */
  predicate FreshIds(g: Graph) {
    && (forall i :: 0 <= i < |g.links| ==> g.links[i].id < g.nextLink)
    && (forall i, j :: 0 <= i < j < |g.links| ==> g.links[i].id != g.links[j].id)
  }

  /** The store's invariant. */
  predicate Valid(g: Graph) {
    Connected(g) && FreshIds(g)
  }

  lemma EmptyValid()
    ensures Valid(Empty)
  {
  }

  lemma AddNodeValid(g: Graph, n: NodeId)
    requires Valid(g)
    ensures Valid(AddNode(g, n))
  {
  }

  /** A link between nodes of the store keeps it valid. */
  lemma AddLinkValid(g: Graph, source: NodeId, target: NodeId)
    requires Valid(g)
    requires source in g.nodes && target in g.nodes
    ensures Valid(AddLink(g, source, target))
  {
    var r := AddLink(g, source, target);
    forall l | l in r.links
      ensures l.source in r.nodes && l.target in r.nodes
    {
      if l !in g.links {
        assert l == r.links[|g.links|];
      }
    }
  }

  lemma {:induction false} FilterFreshIds(s: seq<Link>, drop: Link -> bool, next: LinkId)
    requires FreshIds(Graph([], s, next))
    ensures FreshIds(Graph([], Filter(s, drop), next))
    decreases |s|
  {
    if s != [] {
      var t := s[1..];
      FilterFreshIds(t, drop, next);
      if !drop(s[0]) {
        var f := Filter(t, drop);
        var r := [s[0]] + f;
        forall i, j | 0 <= i < j < |r|
          ensures r[i].id != r[j].id
        {
          if i == 0 {
            assert r[j] in t;
          }
        }
      }
    }
  }

  /** `removenode` keeps the store valid, and afterwards no link refers to
      the removed node. */
  lemma RemoveNodeValid(g: Graph, n: NodeId)
    requires Valid(g)
    ensures Valid(RemoveNode(g, n))
    ensures forall l :: l in RemoveNode(g, n).links ==> l.source != n && l.target != n
  {
    FilterFreshIds(g.links, l => Touches(n, l), g.nextLink);
  }

  lemma RemoveLinkValid(g: Graph, link: Link)
    requires Valid(g)
    ensures Valid(RemoveLink(g, link))
  {
    FilterFreshIds(g.links, l => SameLink(link, l), g.nextLink);
  }

  /** With distinct identities, `removelink` of a stored link removes
      exactly that one link. */
  lemma {:induction false} RemoveLinkRemovesOne(g: Graph, link: Link)
    requires FreshIds(g)
    requires link in g.links
    ensures |RemoveLink(g, link).links| == |g.links| - 1
    decreases |g.links|
  {
    var s := g.links;
    if s[0] == link {
      var t := s[1..];
      FilterNone(t, l => SameLink(link, l));
    } else {
      var t := s[1..];
      assert link in t;
      RemoveLinkRemovesOne(Graph(g.nodes, t, g.nextLink), link);
    }
  }

  /** The store accepts parallel links and self-loops: two `addlink` calls
      with the same endpoints give two distinct links. */
  lemma ParallelLinksKept(g: Graph, a: NodeId, b: NodeId)
    ensures var r := AddLink(AddLink(g, a, b), a, b);
      && |r.links| == |g.links| + 2
      && r.links[|g.links|].source == r.links[|g.links| + 1].source == a
      && r.links[|g.links|].target == r.links[|g.links| + 1].target == b
      && r.links[|g.links|] != r.links[|g.links| + 1]
  {
  }
}

=== FILE: template.dfy ===
/**
  The `format` helper of js/editor/graph.js: every `{}` of a template is
  replaced, left to right and without overlap, by the next argument. The
  argument cursor only moves past a defined argument, so once it reaches a
  missing or undefined argument every later placeholder becomes empty.

  `Format` follows the code (a scan with a cursor); `Split`, `Weave` and
  `Arg` give an independent description (literal pieces interleaved with
  the k-th placeholder's value) and `FormatIsWeave` connects the two.
 */
module Template {
  import opened JsValues

  /** A placeholder `{}` starts at position i of t. */
  predicate HoleAt(t: string, i: int) {
    0 <= i && i + 1 < |t| && t[i] == '{' && t[i + 1] == '}'
  }

  predicate HasHole(t: string) {
    exists i :: 0 <= i < |t| && HoleAt(t, i)
  }

  /** The scan performed by `String.prototype.replace(/{}/g, ...)`, with
      the argument cursor c. */
  function Fill(t: string, args: seq<Option<string>>, c: nat): string
    decreases |t|
  {
    if |t| < 2 then t
    else if t[0] == '{' && t[1] == '}' then
      if c < |args| && args[c].Some? then args[c].value + Fill(t[2..], args, c + 1)
      else Fill(t[2..], args, c)
    else [t[0]] + Fill(t[1..], args, c)
  }

  /** The number of leading arguments that are defined. */
  function DefinedPrefix(args: seq<Option<string>>): (d: nat)
    ensures d <= |args|
    ensures forall k :: 0 <= k < d ==> args[k].Some?
    ensures d < |args| ==> args[d].None?
  {
    if |args| == 0 || args[0].None? then 0 else 1 + DefinedPrefix(args[1..])
  }

  /** The text that ends up in the k-th placeholder (counting from 0):
      the k-th argument when it and every argument before it are defined,
      and the empty string as soon as one of them is missing or undefined. */
  function Arg(args: seq<Option<string>>, k: nat): (r: string)
    ensures k < |args| && (forall j :: 0 <= j <= k ==> args[j].Some?) ==> r == args[k].value
    ensures (exists j :: 0 <= j <= k && (j >= |args| || args[j].None?)) ==> r == ""
  {
    if k < DefinedPrefix(args) then args[k].value else ""
  }

  /** Where the cursor stands after k placeholders have been filled. */
  function Cursor(args: seq<Option<string>>, k: nat): nat {
    if k < DefinedPrefix(args) then k else DefinedPrefix(args)
  }

  /** The literal pieces of a template between its placeholders. */
  function Split(t: string): (r: seq<string>)
    ensures |r| >= 1
    decreases |t|
  {
    if |t| < 2 then [t]
    else if t[0] == '{' && t[1] == '}' then [""] + Split(t[2..])
    else
      var s := Split(t[1..]);
      [[t[0]] + s[0]] + s[1..]
  }

  /** The number of placeholders in a template. */
  function Holes(t: string): nat {
    |Split(t)| - 1
  }

  /** pieces[0] + vals[0] + pieces[1] + vals[1] + ... + pieces[n] */
  function Weave(pieces: seq<string>, vals: seq<string>): string
    requires |pieces| == |vals| + 1
    decreases |vals|
  {
    if |vals| == 0 then pieces[0]
    else pieces[0] + vals[0] + Weave(pieces[1..], vals[1..])
  }

  /** n copies of the placeholder text. */
  function Braces(n: nat): (r: seq<string>)
    ensures |r| == n
    ensures forall k :: 0 <= k < n ==> r[k] == "{}"
  {
    if n == 0 then [] else ["{}"] + Braces(n - 1)
  }

  /** The values of the placeholders k, k+1, ..., k+n-1. */
  function Args(args: seq<Option<string>>, k: nat, n: nat): (r: seq<string>)
    ensures |r| == n
    ensures forall j :: 0 <= j < n ==> r[j] == Arg(args, k + j)
    decreases n
  {
    if n == 0 then [] else [Arg(args, k)] + Args(args, k + 1, n - 1)
  }

  /** `format(t, args...)` */
  function Format(t: string, args: seq<Option<string>>): (r: string)
    ensures r == Weave(Split(t), Args(args, 0, Holes(t)))
  {
    FormatIsWeave(t, args, 0);
    Fill(t, args, 0)
  }

  lemma DefinedPrefixIs(args: seq<Option<string>>, d: nat)
    requires d <= |args|
    requires forall k :: 0 <= k < d ==> args[k].Some?
    requires d < |args| ==> args[d].None?
    ensures DefinedPrefix(args) == d
  {
  }

  lemma WeavePrefix(p: string, pieces: seq<string>, vals: seq<string>)
    requires |pieces| == |vals| + 1
    ensures Weave([p + pieces[0]] + pieces[1..], vals) == p + Weave(pieces, vals)
  {
    var q := [p + pieces[0]] + pieces[1..];
    assert q[1..] == pieces[1..];
  }

  /** One placeholder step of the scan: the cursor left by k placeholders
      yields the value of placeholder k and moves to where k + 1
      placeholders leave it. */
  lemma CursorStep(args: seq<Option<string>>, k: nat)
    ensures var c := Cursor(args, k);
      && (if c < |args| && args[c].Some? then args[c].value else "") == Arg(args, k)
      && (if c < |args| && args[c].Some? then c + 1 else c) == Cursor(args, k + 1)
  {
  }

  lemma ArgsTail(args: seq<Option<string>>, k: nat, n: nat)
    ensures Args(args, k, n + 1)[1..] == Args(args, k + 1, n)
    ensures Args(args, k, n + 1)[0] == Arg(args, k)
  {
  }

  /** The scan from cursor position `Cursor(args, k)` fills the
      placeholders with the values k, k+1, ... */
  lemma {:induction false} FormatIsWeave(t: string, args: seq<Option<string>>, k: nat)
    ensures Fill(t, args, Cursor(args, k)) == Weave(Split(t), Args(args, k, Holes(t)))
    decreases |t|
  {
    if |t| < 2 {
    } else if t[0] == '{' && t[1] == '}' {
      FormatIsWeave(t[2..], args, k + 1);
      HoleCase(t, args, k);
    } else {
      FormatIsWeave(t[1..], args, k);
      TextCase(t, args, k);
    }
  }

  lemma HoleCase(t: string, args: seq<Option<string>>, k: nat)
    requires |t| >= 2 && t[0] == '{' && t[1] == '}'
    requires Fill(t[2..], args, Cursor(args, k + 1)) == Weave(Split(t[2..]), Args(args, k + 1, Holes(t[2..])))
    ensures Fill(t, args, Cursor(args, k)) == Weave(Split(t), Args(args, k, Holes(t)))
  {
    var h := Holes(t[2..]);
    CursorStep(args, k);
    ArgsTail(args, k, h);
    FillHole(t, args, Cursor(args, k));
    WeaveHole(t, Args(args, k, h + 1));
  }

  lemma FillHole(t: string, args: seq<Option<string>>, c: nat)
    requires |t| >= 2 && t[0] == '{' && t[1] == '}'
    ensures Fill(t, args, c)
         == (if c < |args| && args[c].Some? then args[c].value else "")
            + Fill(t[2..], args, if c < |args| && args[c].Some? then c + 1 else c)
  {
    if !(c < |args| && args[c].Some?) {
      assert "" + Fill(t[2..], args, c) == Fill(t[2..], args, c);
    }
  }

  lemma WeaveHole(t: string, vs: seq<string>)
    requires |t| >= 2 && t[0] == '{' && t[1] == '}'
    requires |vs| == Holes(t)
    ensures Holes(t) == Holes(t[2..]) + 1
    ensures Weave(Split(t), vs) == vs[0] + Weave(Split(t[2..]), vs[1..])
  {
    assert Split(t) == [""] + Split(t[2..]);
    assert "" + vs[0] == vs[0];
  }

  lemma TextCase(t: string, args: seq<Option<string>>, k: nat)
    requires |t| >= 2 && !(t[0] == '{' && t[1] == '}')
    requires Fill(t[1..], args, Cursor(args, k)) == Weave(Split(t[1..]), Args(args, k, Holes(t[1..])))
    ensures Fill(t, args, Cursor(args, k)) == Weave(Split(t), Args(args, k, Holes(t)))
  {
    var s := Split(t[1..]);
    WeavePrefix([t[0]], s, Args(args, k, Holes(t)));
  }

  /** Filling every placeholder with `{}` gives back the template: the
      literal pieces are the template's text outside its placeholders. */
  lemma {:induction false} SplitRoundTrip(t: string)
    ensures Weave(Split(t), Braces(Holes(t))) == t
    decreases |t|
  {
    if |t| < 2 {
    } else if t[0] == '{' && t[1] == '}' {
      SplitRoundTrip(t[2..]);
      assert Braces(Holes(t))[1..] == Braces(Holes(t[2..]));
      assert t == "{}" + t[2..];
    } else {
      SplitRoundTrip(t[1..]);
      WeavePrefix([t[0]], Split(t[1..]), Braces(Holes(t)));
      assert t == [t[0]] + t[1..];
    }
  }

  /** The first literal piece is a prefix of the template. */
  lemma {:induction false} SplitHeadPrefix(t: string)
    ensures |Split(t)[0]| <= |t| && Split(t)[0] == t[..|Split(t)[0]|]
    decreases |t|
  {
    if |t| >= 2 && !(t[0] == '{' && t[1] == '}') {
      SplitHeadPrefix(t[1..]);
    }
  }

  /** No literal piece contains `{}`: together with `SplitRoundTrip` this
      makes the pieces exactly the text between the placeholders. */
  lemma {:induction false} SplitHasNoHoles(t: string)
    ensures forall i :: 0 <= i < |Split(t)| ==> !HasHole(Split(t)[i])
    decreases |t|
  {
    if |t| < 2 {
    } else if t[0] == '{' && t[1] == '}' {
      SplitHasNoHoles(t[2..]);
      assert Split(t) == [""] + Split(t[2..]);
    } else {
      var s := Split(t[1..]);
      SplitHasNoHoles(t[1..]);
      SplitHeadPrefix(t[1..]);
      var p := [t[0]] + s[0];
      if HasHole(p) {
        var i :| 0 <= i < |p| && HoleAt(p, i);
        if i > 0 {
          assert HoleAt(s[0], i - 1);
        }
        assert false;
      }
      assert Split(t) == [p] + s[1..];
    }
  }

  /** A template without `{}` comes back unchanged, whatever the arguments. */
  lemma {:induction false} NoHoleUnchanged(t: string, args: seq<Option<string>>)
    requires !HasHole(t)
    ensures Format(t, args) == t
  {
    NoHoleFill(t, args, 0);
  }

  lemma {:induction false} NoHoleFill(t: string, args: seq<Option<string>>, c: nat)
    requires !HasHole(t)
    ensures Fill(t, args, c) == t
    decreases |t|
  {
    if |t| < 2 {
    } else {
      assert !HoleAt(t, 0);
      if !HasHole(t[1..]) {
        NoHoleFill(t[1..], args, c);
      } else {
        var i :| 0 <= i < |t[1..]| && HoleAt(t[1..], i);
        assert HoleAt(t, i + 1);
      }
    }
  }

  /** Arguments beyond the number of placeholders are ignored. */
  lemma ExtraArgsIgnored(t: string, args: seq<Option<string>>, more: seq<Option<string>>)
    requires Holes(t) <= |args|
    ensures Format(t, args + more) == Format(t, args)
  {
    var all := args + more;
    var d := DefinedPrefix(args);
    if d < |args| {
      DefinedPrefixIs(all, d);
    } else {
      assert forall k :: 0 <= k < d ==> all[k].Some?;
      assert DefinedPrefix(all) >= d;
    }
    assert Args(all, 0, Holes(t)) == Args(args, 0, Holes(t));
  }

  /** Once the argument at the cursor is undefined, it and every later
      argument are irrelevant: the output is the one obtained from the
      arguments before it, every later placeholder being empty. */
  lemma UndefinedStopsCursor(t: string, args: seq<Option<string>>, j: nat)
    requires j < |args| && args[j].None?
    ensures Format(t, args) == Format(t, args[..j])
    ensures forall k :: j <= k ==> Arg(args, k) == ""
  {
    var d := DefinedPrefix(args);
    assert d <= j;
    DefinedPrefixIs(args[..j], d);
    assert Args(args, 0, Holes(t)) == Args(args[..j], 0, Holes(t));
  }

  /** A template that does not start with `{` splits into its first
      character joined to the first piece of the rest. */
  lemma SplitCons(t: string)
    requires |t| >= 2 && t[0] != '{'
    ensures Split(t) == [[t[0]] + Split(t[1..])[0]] + Split(t[1..])[1..]
  {
  }

  lemma {:induction false} SplitLiteral(p: string, t: string)
    requires '{' !in p
    ensures Split(p + t) == [p + Split(t)[0]] + Split(t)[1..]
    decreases |p|
  {
    var s := Split(t);
    if p == [] {
      assert p + t == t && p + s[0] == s[0];
      assert s == [s[0]] + s[1..];
    } else if |p + t| < 2 {
      SplitShort(p, t);
    } else {
      var u := p + t;
      assert u[0] == p[0] && p[0] in p;
      assert u[1..] == p[1..] + t;
      SplitCons(u);
      SplitLiteral(p[1..], t);
      assert [p[0]] + (p[1..] + s[0]) == p + s[0];
    }
  }

  lemma SplitShort(p: string, t: string)
    requires p != [] && |p + t| < 2
    ensures Split(p + t) == [p + Split(t)[0]] + Split(t)[1..]
  {
    assert t == [] && p + t == p;
    assert Split(t) == [""];
    assert p + "" == p;
  }

  /** Templates built from pieces without `{` split back into those pieces. */
  lemma {:induction false} SplitWeave(pieces: seq<string>)
    requires |pieces| >= 1
    requires forall i :: 0 <= i < |pieces| ==> '{' !in pieces[i]
    ensures Split(Weave(pieces, Braces(|pieces| - 1))) == pieces
    decreases |pieces|
  {
    var n := |pieces| - 1;
    if n == 0 {
      SplitLiteral(pieces[0], "");
      assert pieces[0] + "" == pieces[0];
    } else {
      var rest := Weave(pieces[1..], Braces(n)[1..]);
      assert Braces(n)[1..] == Braces(n - 1);
      SplitWeave(pieces[1..]);
      assert Weave(pieces, Braces(n)) == pieces[0] + ("{}" + rest);
      SplitLiteral(pieces[0], "{}" + rest);
      assert ("{}" + rest)[2..] == rest;
      assert Split("{}" + rest) == [""] + pieces[1..];
      assert pieces[0] + "" == pieces[0];
      assert pieces == [pieces[0]] + pieces[1..];
    }
  }

  /** Formatting such a template interleaves its pieces with the values of
      the successive placeholders. */
  lemma FormatWoven(pieces: seq<string>, args: seq<Option<string>>)
    requires |pieces| >= 1
    requires forall i :: 0 <= i < |pieces| ==> '{' !in pieces[i]
    ensures Format(Weave(pieces, Braces(|pieces| - 1)), args) == Weave(pieces, Args(args, 0, |pieces| - 1))
  {
    SplitWeave(pieces);
  }

  lemma WeaveTwo(p0: string, p1: string, p2: string, v0: string, v1: string)
    ensures Weave([p0, p1, p2], [v0, v1]) == p0 + v0 + p1 + v1 + p2
  {
    assert [p0, p1, p2][1..] == [p1, p2] && [p1, p2][1..] == [p2];
    assert [v0, v1][1..] == [v1] && [v1][1..] == [];
    assert Weave([p2], []) == p2;
    assert Weave([p1, p2], [v1]) == p1 + v1 + p2;
    assert Weave([p0, p1, p2], [v0, v1]) == p0 + v0 + (p1 + v1 + p2);
  }

  lemma WeaveThree(p0: string, p1: string, p2: string, p3: string, v0: string, v1: string, v2: string)
    ensures Weave([p0, p1, p2, p3], [v0, v1, v2]) == p0 + v0 + p1 + v1 + p2 + v2 + p3
  {
    assert [p0, p1, p2, p3][1..] == [p1, p2, p3];
    assert [v0, v1, v2][1..] == [v1, v2];
    WeaveTwo(p1, p2, p3, v1, v2);
  }

  /** The placeholder values for three arguments. */
  lemma ArgsOfThree(a: Option<string>, b: Option<string>, c: Option<string>)
    ensures Arg([a, b, c], 0) == (if a.Some? then a.value else "")
    ensures Arg([a, b, c], 1) == (if a.Some? && b.Some? then b.value else "")
    ensures Arg([a, b, c], 2) == (if a.Some? && b.Some? && c.Some? then c.value else "")
  {
    var args := [a, b, c];
    if a.None? {
      DefinedPrefixIs(args, 0);
    } else if b.None? {
      DefinedPrefixIs(args, 1);
    } else if c.None? {
      DefinedPrefixIs(args, 2);
    } else {
      DefinedPrefixIs(args, 3);
    }
  }

  /** The placeholder values for two arguments. */
  lemma ArgsOfTwo(a: Option<string>, b: Option<string>)
    ensures Arg([a, b], 0) == (if a.Some? then a.value else "")
    ensures Arg([a, b], 1) == (if a.Some? && b.Some? then b.value else "")
  {
    var args := [a, b];
    if a.None? {
      DefinedPrefixIs(args, 0);
    } else if b.None? {
      DefinedPrefixIs(args, 1);
    } else {
      DefinedPrefixIs(args, 2);
    }
  }
}
